=== FILE: README.md ===
# Imposition geometry of bleeds, in Dafny

This project models the imposition geometry of the `bleeds` print tool. The tool places one artwork unit per output page, either a raster image or one page of an embedded PDF. For each page it:

- with bleed on, sizes the media, bleed and trim boxes (otherwise the page is the document size);
- turns the page when auto-rotation is on and the artwork is landscape;
- scales the artwork to cover the target box ("fit") or to fit inside it ("contain");
- clips the page;
- draws the artwork centred, plus, with bleed and mirror bleed on, eight mirrored copies around it;
- with bleed on, adds sixteen crop-mark strokes.

The model is functional. Every quantity is a `real` in points (millimetres appear only through `Units.Mm`). Options are an immutable `LayoutOptions` record. A PDF page is a `Page` record holding:

- its media box;
- its optional bleed and trim boxes;
- its rotation;
- the sequence of content operators it receives (save, clip path, draw, restore, line).

Modules, leaves first:

- `Geometry`: points, sizes, rectangles.
- `Units`: mm ⇄ points.
- `Layout`: options, artwork units, the rotation decision.
- `Boxes`: the `sizes` table and the three page boxes.
- `Scale`: `getArtSize`.
- `Mirror`: `addBleed`.
- `CropMarks`: `addCropMarks`.
- `Assembly`: `setBoxSize`/`rotatePage` applied to a page, `drawPdf`, `processEmbedImage`, `processEmbedPdf`.

Behaviour of the code that the model keeps:

- **`docSize` is in points, not millimetres.** The code adds it directly to `mm(12)` and passes it to `addPage`.
- **The scale is planned before any box is set.** Both assemblers call `getArtSize` on the page as just added, before `setBoxSize` (src/lib/utils.js:330-332, 346-348). At that point the page's bleed and trim boxes still read as its media box, which is the document size. So "fit" covers the document (trim) size, not the bleed box. `Assembly.CenterDrawAgainstTrim` states what the code guarantees.
  - With mirror bleed on, under fit and on a document at least 3 mm each way, the mirrored copies still fill the whole visible area (`Assembly.MirrorBleedFillsClip`). Under contain they need not: a long, thin artwork leaves a grid thinner than the bleed box.
  - With mirror bleed off, the bleed strips along an axis on which the artwork meets the trim box stay blank, including the bleed-box corners (`Assembly.BleedStripsBlankWithoutMirror`). Unturned artwork with the document's proportions paints exactly the trim box, so the whole bleed margin stays blank (`Assembly.BleedMarginBlankWithoutMirror`). Turned artwork does not: it is scaled against the unturned document but drawn on the turned page.
- **The clip rectangle is the bleed box, not the trim box.** `drawPdf` insets the media box by `mm(3)` when bleed is on.
- **The scale is taken in the page's own orientation.** The artwork is scaled against the document size unturned, and it is drawn unturned on a page whose boxes are transposed. Comparing the oriented artwork with the document is therefore the same as comparing the drawn artwork with the page's trim box, and that is what the lemmas state.

The PDF backend is an external collaborator. The model assumes the following of it:

- an unset bleed or trim box reads as the media box;
- `getWidth`/`getHeight` read the media box;
- `setSize` resizes the media box at its origin, and resizes with it a bleed or trim box that is set and equal to the old media box; it keeps every other box;
- a drawn image or page with a negative width or height is flipped along that axis.

## Model

| member | source | states |
|---|---|---|
| `Units.Mm` | src/lib/utils.js:51-53 | converting mm to points keeps the sign, is zero only at zero, and enlarges every nonzero length (positive ones grow, negative ones shrink) |
| `Units.ToMm` | src/lib/utils.js:55-57 | converting points to mm can be undone by multiplying by 2.834645663 |
| `Units.RoundTrip` | src/lib/utils.js:51-57 | `toMm(mm(n)) == n` and `mm(toMm(n)) == n` for every real n |
| `Units.MmStrictlyMonotone` | src/lib/utils.js:51-53 | `mm` preserves strict order and equality in both directions |
| `Units.MmAdditive` | src/lib/utils.js:51-53 | `mm` is linear, so margins built from summed millimetres add up in points |
| `Layout.RotateArt` | src/lib/utils.js:59-63 | the page turns exactly when auto-rotation is on and the artwork is strictly landscape |
| `Layout.OrientedArt` | src/lib/utils.js:93-94 | with auto-rotation on, the artwork as laid out is never landscape; with it off it is untouched; it is always the artwork or its transpose |
| `Layout.NoRotationUnlessLandscape` | src/lib/utils.js:59-63 | square art, portrait art, and any art with auto-rotation off never turn the page |
| `Boxes.Sizes` | src/lib/utils.js:15-35 | the trim box is the document; the media box has distance 0; the bleed and trim boxes sit symmetrically inside the media box at 3 mm and 6 mm; the crop-mark entry is zero |
| `Boxes.BoxSetFor` | src/lib/utils.js:74-87 | trim ⊆ bleed ⊆ media, all three concentric; media at the origin; widths and heights strictly increase from trim to media; the trim box is the (transposed when rotated) document; bleed and trim are the media box inset 3 mm and 6 mm |
| `Boxes.RotationTurnsEveryBox` | src/lib/utils.js:77-86 | rotation exchanges each box's width and height and leaves every origin (distance) unchanged |
| `Scale.ScaleFactor` | src/lib/utils.js:96-105 | the fit factor makes the artwork cover the target and the contain factor makes it fit inside; either way it meets the target exactly on one axis |
| `Scale.CoverScaleIsLeast` | src/lib/utils.js:103-104 | a uniform factor covers the target if and only if it is at least the fit factor, so the max of the two ratios is the least covering factor |
| `Scale.ContainScaleIsGreatest` | src/lib/utils.js:103-105 | a uniform factor fits inside the target if and only if it is at most the contain factor, so the min of the two ratios is the greatest fitting factor |
| `Scale.GetArtSize` | src/lib/utils.js:89-108 | the placed size keeps the artwork's proportions. Compared in the page's orientation (swapped when rotated), it covers the bleed box (fit) or fits in the trim box (contain), and it meets that box on one axis |
| `Mirror.AddBleed` | src/lib/utils.js:213-299 | 1 draw, or 9 when both bleed and mirror bleed are on; the first draw is centred in the media box at the placed size; all draws have the unit's kind; normalised, draw k paints grid cell k of the 3×3 grid; a draw has negative width (height) exactly when its cell is off the centre column (row) |
| `Mirror.MirrorTilesDisjoint` | src/lib/utils.js:236-298 | the nine painted rectangles are pairwise non-overlapping |
| `Mirror.MirrorTilesCoverGrid` | src/lib/utils.js:225-298 | the nine painted rectangles stay within the 3w×3h grid around the centre draw and together cover every point of it |
| `Mirror.MirrorCopiesReflectCenter` | src/lib/utils.js:236-298 | every copy maps each artwork point to the centre draw's image of that point, reflected across the edge(s) the two cells share |
| `Mirror.AdjacentDrawsDifferInOneSign` | src/lib/utils.js:236-298 | draws of any two edge-adjacent cells differ in the sign of exactly one of width and height |
| `CropMarks.Marks` | src/lib/utils.js:110-211 | eight marks, each axis-aligned, 4 mm long, starting on the page border, 6 mm in from the border it is perpendicular to; on a page of at least 6 mm each way they lie on the page |
| `CropMarks.AddCropMarks` | src/lib/utils.js:110-211 | 16 strokes, stroke k tracing mark k / 2 of the eight, the even ones 0.75 thick in white and the odd ones 0.25 thick in the default colour; each well placed as above; all lie in [0,W]×[0,H] when W, H ≥ 6 mm |
| `CropMarks.StrokesPaired` | src/lib/utils.js:116-210 | strokes 2i and 2i+1 trace the same mark, the wider white one first and the thinner default-colour one on top |
| `CropMarks.EachCornerMarked` | src/lib/utils.js:116-210 | each page corner gets one horizontal and one vertical mark, each starting on an edge through that corner, 6 mm from it |
| `CropMarks.MarksStayInMargin` | src/lib/utils.js:110-211 | on a page of at least 12 mm each way, no mark reaches into the rectangle 6 mm in from the edges |
| `Assembly.SetBoxSize` | src/lib/utils.js:74-87 | the page gets all three boxes: the media box at the origin, 12 mm larger each way than the (transposed when rotated) document, with the bleed box 3 mm and the trim box 6 mm inside it, so the trim box is the document and all three are nested and concentric; rotation and content are untouched |
| `Assembly.SetBoxSizeIdempotent` | src/lib/utils.js:65-68 | setting the boxes again, as `rotatePage` does with bleed on, changes nothing |
| `Assembly.SetSize` | src/lib/utils.js:69 | resizing keeps the media origin, the rotation and the content; a bleed or trim box that reads as the media box (unset, or set equal to it) still reads as the new media box, any other is kept, and no box appears or disappears |
| `Assembly.RotatePage` | src/lib/utils.js:65-72 | the page gets rotation 90. With bleed its boxes are (re)set; without bleed its media box becomes the transposed document and no bleed or trim box appears or disappears. Content is untouched |
| `Assembly.DrawPdf` | src/lib/utils.js:301-317 | drawing leaves the page's boxes and rotation as they were |
| `Assembly.DrawPdfReadBack` | src/lib/utils.js:301-317 | read back, drawing adds exactly the mirror tiler's draws for the page's media box and no stroke, and on a well-nested page leaves exactly one saved state open, the one the clip pushed |
| `Assembly.ProcessEmbedImage` | src/lib/utils.js:342-355 | the page for an image is the assembled page of that image (so every `Assembly.Assembled…` lemma applies to it); it draws only images: one draw, or nine with bleed and mirror bleed |
| `Assembly.ProcessEmbedPdf` | src/lib/utils.js:319-340 | one page per embedded page, in input order, each assembled independently; every page draws only embedded pages: one draw, or nine with bleed and mirror bleed |
| `Assembly.AssembledBoxes` | src/lib/utils.js:327-333 | rotation is 90 exactly when the artwork rotates. With bleed the page carries the nested, concentric box set. Without bleed it is the document size, transposed when rotated, with no bleed or trim box |
| `Assembly.AssembledContent` | src/lib/utils.js:301-355 | the page opens with a clip to the bleed box (bleed on) or the whole page (bleed off); it draws 1 or 9 times, all of the unit's kind, the first centred; it strokes the 16 crop marks exactly when bleed is on; every save is restored before any crop mark, and all art is drawn clipped |
| `Assembly.AssembledDraws` | src/lib/utils.js:316-335 | the page's draws are exactly the mirror tiler's, for the final media box and the planned size |
| `Assembly.PlannedSizeAgainstDocument` | src/lib/utils.js:327-330 | on a positive document the planned size is positive and, in the page's own orientation, covers (fit) or fits inside (contain) the document, meeting it exactly on at least one axis |
| `Assembly.PlannedSizeIsDocument` | src/lib/utils.js:89-108 | unturned artwork with the document's proportions is planned at exactly the document size, under fit and under contain |
| `Assembly.CenterDrawAgainstTrim` | src/lib/utils.js:342-351 | the centre draw covers the page's trim box under fit and lies inside it under contain |
| `Assembly.MirrorBleedFillsClip` | src/lib/utils.js:301-317 | with bleed, mirror bleed and fit on a document of at least 3 mm each way, every point of the clip rectangle is painted by some draw |
| `Assembly.BleedMarginBlankWithoutMirror` | src/lib/utils.js:346-348 | without mirror bleed, unturned artwork with the document's proportions paints exactly the trim box, so a bleed-box corner inside the clip stays blank |
| `Assembly.BleedStripsBlankWithoutMirror` | src/lib/utils.js:342-351 | without mirror bleed, for any artwork, fit or contain, turned or not, the single draw stays within the trim box's span on at least one axis, so the bleed strips along that axis and the bleed-box corner, which lies inside the clip, stay unpainted |
| `Assembly.AssembledMarksFrameTrim` | src/lib/utils.js:110-211 | with bleed, every crop mark lies on the line of a trim-box edge, inside the media box and wholly outside the trim box |
| `Assembly.SquareSheetExample` | src/lib/utils.js:342-355 | a 100 mm square document with bleed, mirror and fit and a square image gives an upright 112 mm media box, the trim box 6 mm in, a clip 3 mm in, 9 draws and 16 strokes |

## Left out

- `readFile` (src/lib/utils.js:37-49): file reading through a browser `FileReader` is I/O.
- The option store. The store module holds only UI status (`queueStatus`) and does not define the `options` the core reads. The model passes an explicit `LayoutOptions` value instead.
- Backend internals: page creation, embedding, drawing, box setters, graphics operators, colours, degrees. They are constructors of the `Page` record and its `Op` operators, not implementations.
- The `await` on `embedPage`. `ProcessEmbedPdf` takes the embedded pages' sizes as a sequence and loops over them in order. Embedding failures are not modelled.
- Telling images from embedded pages by constructor name (src/lib/utils.js:217-218) is replaced by the tagged `ArtKind`.
- Floating-point rounding. All arithmetic is over exact reals, so the unit round trip is exact rather than approximate.
- Boxes.Sizes: the code builds its size table once, when the module loads, from the document size current at that moment, while `addPage`, `setSize` and `rotatePage` read the document size on every call. The model computes the table from the same `docSize` the page uses, so it assumes the document size does not change after load; a later change would give the code stale boxes, which the model does not reproduce.
- Scale.GetArtSize: requires positive artwork dimensions. The code divides by them without a check, and a zero dimension would give an infinite or NaN scale, which exact reals cannot express.
- Table or grid layout: no code for it exists in the modelled source.
- The commented-out progress message in `processEmbedPdf` (src/lib/utils.js:323).

=== FILE: assembly.dfy ===
/** The page assembler (`drawPdf`, `processEmbedImage`, `processEmbedPdf`,
    with `setBoxSize` and `rotatePage` applied to a page). A page is a record
    of its boxes, its rotation and the content operators it receives.
    `AssemblePage`, the per-unit assembly both assemblers share, carries no
    contract of its own: the `Assembled…` lemmas below state what it builds. */
module Assembly {
  import opened Geometry
  import opened Units
  import opened Layout
  import opened Boxes
  import opened Scale
  import opened Mirror
  import opened CropMarks

  /** The content operators a page receives, in order. */
  datatype Op =
    | PushGraphicsState
    | MoveTo(p: Point)
    | LineTo(p: Point)
    | ClosePath
    | ClipEvenOdd
    | EndPath
    | PopGraphicsState
    | DrawArt(draw: Draw)
    | DrawLine(segment: Segment)

  /** An output page. A bleed or trim box that was never set reads as the
      media box, as the PDF backend reports it. */
  datatype Page = Page(
    mediaBox: Rect,
    bleedBox: Option<Rect>,
    trimBox: Option<Rect>,
    rotation: int,
    ops: seq<Op>)
  {
    function GetBleedBox(): Rect { bleedBox.GetOr(mediaBox) }
    function GetTrimBox(): Rect { trimBox.GetOr(mediaBox) }
  }

  /** A new, empty, upright page of the given size. */
  function AddPage(size: Size): Page {
    Page(Rect(0.0, 0.0, size.width, size.height), None, None, 0, [])
  }

  /** The page with the media, bleed and trim boxes of the document set,
      transposed when the artwork turns the page. Content and rotation are
      left alone. */
  function SetBoxSize(page: Page, opts: LayoutOptions, art: Art): (r: Page)
    ensures r.mediaBox.Contains(r.GetBleedBox()) && r.GetBleedBox().Contains(r.GetTrimBox())
    ensures r.GetBleedBox().CenterX() == r.mediaBox.CenterX() == r.GetTrimBox().CenterX()
    ensures r.GetBleedBox().CenterY() == r.mediaBox.CenterY() == r.GetTrimBox().CenterY()
    ensures r.GetTrimBox().Dims() == Oriented(opts.docSize, RotateArt(opts, art))
    ensures r.mediaBox.x == 0.0 && r.mediaBox.y == 0.0
    ensures r.mediaBox.width == r.GetTrimBox().width + Mm(12.0)
    ensures r.mediaBox.height == r.GetTrimBox().height + Mm(12.0)
    ensures r.GetBleedBox() == r.mediaBox.Inset(Mm(3.0)) && r.GetTrimBox() == r.mediaBox.Inset(Mm(6.0))
    ensures r.bleedBox.Some? && r.trimBox.Some?
    ensures r.rotation == page.rotation && r.ops == page.ops
  {
    var b := BoxSetFor(opts.docSize, RotateArt(opts, art));
    page.(mediaBox := b.media, bleedBox := Some(b.bleed), trimBox := Some(b.trim))
  }

  /** Setting the boxes twice is setting them once. */
  lemma SetBoxSizeIdempotent(page: Page, opts: LayoutOptions, art: Art)
    ensures SetBoxSize(SetBoxSize(page, opts, art), opts, art) == SetBoxSize(page, opts, art)
  {
  }

  /** A box that is set and equal to the old media box follows it to the
      new one; any other box, set or not, is kept. */
  function Follow(box: Option<Rect>, oldMedia: Rect, newMedia: Rect): Option<Rect> {
    if box == Some(oldMedia) then Some(newMedia) else box
  }

  /** The page with its media box resized, its origin kept. As in the PDF
      backend, a bleed or trim box that equals the old media box is resized
      with it. */
  function SetSize(page: Page, width: real, height: real): (r: Page)
    ensures r.mediaBox.x == page.mediaBox.x && r.mediaBox.y == page.mediaBox.y
    ensures r.mediaBox.Dims() == Size(width, height)
    ensures r.bleedBox.None? == page.bleedBox.None? && r.trimBox.None? == page.trimBox.None?
    ensures r.GetBleedBox() == if page.GetBleedBox() == page.mediaBox then r.mediaBox else page.GetBleedBox()
    ensures r.GetTrimBox() == if page.GetTrimBox() == page.mediaBox then r.mediaBox else page.GetTrimBox()
    ensures r.rotation == page.rotation && r.ops == page.ops
  {
    var media := Rect(page.mediaBox.x, page.mediaBox.y, width, height);
    page.(mediaBox := media,
          bleedBox := Follow(page.bleedBox, page.mediaBox, media),
          trimBox := Follow(page.trimBox, page.mediaBox, media))
  }

  /** The page turned a quarter: with bleed its boxes are (re)set, without
      bleed its size becomes the transposed document size. */
  function RotatePage(page: Page, opts: LayoutOptions, art: Art): (r: Page)
    ensures r.rotation == 90 && r.ops == page.ops
    ensures opts.bleed ==> r == SetBoxSize(page, opts, art).(rotation := 90)
    ensures !opts.bleed ==>
              && r.mediaBox.Dims() == opts.docSize.Transposed()
              && r.bleedBox.None? == page.bleedBox.None? && r.trimBox.None? == page.trimBox.None?
  {
    var resized := if opts.bleed then SetBoxSize(page, opts, art)
                   else SetSize(page, opts.docSize.height, opts.docSize.width);
    resized.(rotation := 90)
  }

  /** Save the graphics state and clip, even-odd, to `clip`. */
  function ClipPath(clip: Rect): seq<Op> {
    [ PushGraphicsState,
      MoveTo(Point(clip.x, clip.y)),
      LineTo(Point(clip.Right(), clip.y)),
      LineTo(Point(clip.Right(), clip.Top())),
      LineTo(Point(clip.x, clip.Top())),
      ClosePath,
      ClipEvenOdd,
      EndPath ]
  }

  function DrawOps(draws: seq<Draw>): (r: seq<Op>)
    ensures |r| == |draws|
    ensures forall i | 0 <= i < |r| :: r[i] == DrawArt(draws[i])
  {
    seq(|draws|, i requires 0 <= i < |draws| => DrawArt(draws[i]))
  }

  function LineOps(lines: seq<Segment>): (r: seq<Op>)
    ensures |r| == |lines|
    ensures forall i | 0 <= i < |r| :: r[i] == DrawLine(lines[i])
  {
    seq(|lines|, i requires 0 <= i < |lines| => DrawLine(lines[i]))
  }

  /** The rectangle `drawPdf` clips to: the media box inset 3 mm when bleed
      is on (which is the bleed box), not inset otherwise. */
  function ClipRect(page: Page, opts: LayoutOptions): Rect {
    var inset := if opts.bleed then Mm(3.0) else 0.0;
    Rect(inset, inset, page.mediaBox.width - 2.0 * inset, page.mediaBox.height - 2.0 * inset)
  }

  /** Save the state, clip, then issue the mirror tiler's draws. */
  function DrawPdf(page: Page, opts: LayoutOptions, art: Art, artSize: Size): (r: Page)
    ensures r.mediaBox == page.mediaBox && r.bleedBox == page.bleedBox && r.trimBox == page.trimBox
    ensures r.rotation == page.rotation
  {
    page.(ops := page.ops + ClipPath(ClipRect(page, opts))
                 + DrawOps(AddBleed(opts, art.kind, page.mediaBox, artSize)))
  }

  /** Read back, `DrawPdf` adds exactly the mirror tiler's draws and no
      stroke, and leaves open the one saved state its clip pushed. */
  lemma DrawPdfReadBack(page: Page, opts: LayoutOptions, art: Art, artSize: Size)
    ensures var r := DrawPdf(page, opts, art, artSize);
            && ArtDraws(r.ops) == ArtDraws(page.ops) + AddBleed(opts, art.kind, page.mediaBox, artSize)
            && Lines(r.ops) == Lines(page.ops)
            && (Scan(page.ops, 0) == Some(0) ==> Scan(r.ops, 0) == Some(1))
  {
    var clip := ClipPath(ClipRect(page, opts));
    var draws := DrawOps(AddBleed(opts, art.kind, page.mediaBox, artSize));
    ClipPathFacts(ClipRect(page, opts));
    DrawOpsRoundTrip(AddBleed(opts, art.kind, page.mediaBox, artSize));
    ArtDrawsAppend(page.ops, clip);
    ArtDrawsAppend(page.ops + clip, draws);
    LinesAppend(page.ops, clip);
    LinesAppend(page.ops + clip, draws);
    ScanAppend(page.ops, clip, 0);
    ScanAppend(page.ops + clip, draws, 0);
    ScanDraws(AddBleed(opts, art.kind, page.mediaBox, artSize), 1);
  }

  /** Restore the graphics state saved by `DrawPdf`. */
  function PopState(page: Page): Page {
    page.(ops := page.ops + [PopGraphicsState])
  }

  /** Append the crop marks for the page's (media box) size. */
  function AddCropMarksTo(page: Page): Page {
    page.(ops := page.ops + LineOps(AddCropMarks(page.mediaBox.width, page.mediaBox.height)))
  }

  /** The page for `art` before any content: added at the document size,
      given its boxes when bleed is on, turned when the artwork rotates. */
  function PreparedPage(opts: LayoutOptions, art: Art): (r: Page)
    ensures r.ops == []
  {
    var blank := AddPage(opts.docSize);
    var boxed := if opts.bleed then SetBoxSize(blank, opts, art) else blank;
    if RotateArt(opts, art) then RotatePage(boxed, opts, art) else boxed
  }

  /** The placed size of `art`. As in the source, it is planned on the page
      as just added, before any box is set, so the bleed and trim boxes it
      scales against both still read as the document size. */
  function PlannedSize(opts: LayoutOptions, art: Art): Size
    requires art.Valid()
  {
    var blank := AddPage(opts.docSize);
    GetArtSize(opts, art, blank.GetBleedBox(), blank.GetTrimBox())
  }

  /** One output page for one artwork unit: clip, the mirror tiler's draws,
      restore, then crop marks when bleed is on. */
  function AssemblePage(opts: LayoutOptions, art: Art): Page
    requires art.Valid()
  {
    var drawn := PopState(DrawPdf(PreparedPage(opts, art), opts, art, PlannedSize(opts, art)));
    if opts.bleed then AddCropMarksTo(drawn) else drawn
  }

  /** The page for one image. */
  function ProcessEmbedImage(opts: LayoutOptions, image: Size): (r: Page)
    requires image.width > 0.0 && image.height > 0.0
    ensures r == AssemblePage(opts, Art(Image, image.width, image.height))
    ensures forall d | d in ArtDraws(r.ops) :: d.kind == Image
    ensures |ArtDraws(r.ops)| == if opts.bleed && opts.mirrorBleed then 9 else 1
  {
    var art := Art(Image, image.width, image.height);
    AssembledDrawCount(opts, art);
    AssemblePage(opts, art)
  }

  /** `page` is the output page assembled for an embedded page of size `size`. */
  predicate EmbeddedPageOf(opts: LayoutOptions, size: Size, page: Page) {
    && size.width > 0.0 && size.height > 0.0
    && page == AssemblePage(opts, Art(EmbeddedPage, size.width, size.height))
  }

  /** One page per page of the embedded document, in order, each assembled
      independently of the others. */
  method ProcessEmbedPdf(opts: LayoutOptions, pages: seq<Size>) returns (out: seq<Page>)
    requires forall p | p in pages :: p.width > 0.0 && p.height > 0.0
    ensures |out| == |pages|
    ensures forall i | 0 <= i < |pages| :: EmbeddedPageOf(opts, pages[i], out[i])
    ensures forall i | 0 <= i < |pages| :: DrawsOnly(opts, EmbeddedPage, out[i])
  {
    out := [];
    var p := 0;
    while p < |pages|
      invariant 0 <= p <= |pages|
      invariant |out| == p
      invariant forall i | 0 <= i < p :: EmbeddedPageOf(opts, pages[i], out[i])
      invariant forall i | 0 <= i < p :: DrawsOnly(opts, EmbeddedPage, out[i])
    {
      var embedded := Art(EmbeddedPage, pages[p].width, pages[p].height);
      AssembledDrawCount(opts, embedded);
      var page := AssemblePage(opts, embedded);
      out := out + [page];
      p := p + 1;
    }
  }

  // ---------------------------------------------------------------------
  // Reading a page's operators back

  /** The art draws among `ops`, in order. */
  function ArtDraws(ops: seq<Op>): seq<Draw> {
    if |ops| == 0 then []
    else (if ops[0].DrawArt? then [ops[0].draw] else []) + ArtDraws(ops[1..])
  }

  /** The crop-mark strokes among `ops`, in order. */
  function Lines(ops: seq<Op>): seq<Segment> {
    if |ops| == 0 then []
    else (if ops[0].DrawLine? then [ops[0].segment] else []) + Lines(ops[1..])
  }

  /** Depth of the graphics-state stack after `ops` when started at `depth`,
      or None when an operator comes where it must not: a restore with
      nothing saved, art drawn outside a saved (clipped) state, or a crop
      mark drawn inside one. */
  function Scan(ops: seq<Op>, depth: nat): Option<nat> {
    if |ops| == 0 then Some(depth)
    else match ops[0]
      case PushGraphicsState => Scan(ops[1..], depth + 1)
      case PopGraphicsState => if depth == 0 then None else Scan(ops[1..], depth - 1)
      case DrawArt(_) => if depth == 0 then None else Scan(ops[1..], depth)
      case DrawLine(_) => if depth != 0 then None else Scan(ops[1..], depth)
      case _ => Scan(ops[1..], depth)
  }

  /** Every saved state is restored, all art is drawn while clipped and every
      crop mark after the clip has been released. */
  predicate WellNested(ops: seq<Op>) {
    Scan(ops, 0) == Some(0)
  }

  lemma {:induction false} ArtDrawsAppend(a: seq<Op>, b: seq<Op>)
    ensures ArtDraws(a + b) == ArtDraws(a) + ArtDraws(b)
    decreases |a|
  {
    if |a| > 0 {
      assert (a + b)[1..] == a[1..] + b;
      ArtDrawsAppend(a[1..], b);
    } else {
      assert a + b == b;
    }
  }

  lemma {:induction false} LinesAppend(a: seq<Op>, b: seq<Op>)
    ensures Lines(a + b) == Lines(a) + Lines(b)
    decreases |a|
  {
    if |a| > 0 {
      assert (a + b)[1..] == a[1..] + b;
      LinesAppend(a[1..], b);
    } else {
      assert a + b == b;
    }
  }

  /** Reading the draws back from `DrawOps` gives the draws. */
  lemma {:induction false} DrawOpsRoundTrip(draws: seq<Draw>)
    ensures ArtDraws(DrawOps(draws)) == draws
    ensures Lines(DrawOps(draws)) == []
    decreases |draws|
  {
    if |draws| > 0 {
      assert DrawOps(draws)[1..] == DrawOps(draws[1..]);
      DrawOpsRoundTrip(draws[1..]);
    }
  }

  /** Reading the strokes back from `LineOps` gives the strokes. */
  lemma {:induction false} LineOpsRoundTrip(lines: seq<Segment>)
    ensures Lines(LineOps(lines)) == lines
    ensures ArtDraws(LineOps(lines)) == []
    decreases |lines|
  {
    if |lines| > 0 {
      assert LineOps(lines)[1..] == LineOps(lines[1..]);
      LineOpsRoundTrip(lines[1..]);
    }
  }

  /** Operators that neither draw nor touch the graphics-state stack. */
  predicate Neutral(op: Op) {
    op.MoveTo? || op.LineTo? || op.ClosePath? || op.ClipEvenOdd? || op.EndPath?
  }

  lemma {:induction false} NeutralOps(ops: seq<Op>, depth: nat)
    requires forall i | 0 <= i < |ops| :: Neutral(ops[i])
    ensures ArtDraws(ops) == [] && Lines(ops) == []
    ensures Scan(ops, depth) == Some(depth)
    decreases |ops|
  {
    if |ops| > 0 {
      NeutralOps(ops[1..], depth);
    }
  }

  /** Scanning a concatenation scans the second part from where the first left off. */
  lemma {:induction false} ScanAppend(a: seq<Op>, b: seq<Op>, depth: nat)
    ensures Scan(a + b, depth) == (match Scan(a, depth) case None => None case Some(d) => Scan(b, d))
    decreases |a|
  {
    if |a| > 0 {
      assert (a + b)[1..] == a[1..] + b;
      match a[0]
      case PushGraphicsState => ScanAppend(a[1..], b, depth + 1);
      case PopGraphicsState => if depth > 0 { ScanAppend(a[1..], b, depth - 1); }
      case DrawArt(_) => if depth > 0 { ScanAppend(a[1..], b, depth); }
      case DrawLine(_) => if depth == 0 { ScanAppend(a[1..], b, depth); }
      case _ => ScanAppend(a[1..], b, depth);
    } else {
      assert a + b == b;
    }
  }

  lemma {:induction false} ScanDraws(draws: seq<Draw>, depth: nat)
    requires depth > 0
    ensures Scan(DrawOps(draws), depth) == Some(depth)
    decreases |draws|
  {
    if |draws| > 0 {
      assert DrawOps(draws)[1..] == DrawOps(draws[1..]);
      ScanDraws(draws[1..], depth);
    }
  }

  lemma {:induction false} ScanLines(lines: seq<Segment>)
    ensures Scan(LineOps(lines), 0) == Some(0)
    decreases |lines|
  {
    if |lines| > 0 {
      assert LineOps(lines)[1..] == LineOps(lines[1..]);
      ScanLines(lines[1..]);
    }
  }

  /** The clip prologue saves one state and draws nothing. */
  lemma ClipPathFacts(clip: Rect)
    ensures ArtDraws(ClipPath(clip)) == [] && Lines(ClipPath(clip)) == []
    ensures Scan(ClipPath(clip), 0) == Some(1)
  {
    var c := ClipPath(clip);
    NeutralOps(c[1..], 1);
    NeutralOps(c[1..], 0);
  }

  // ---------------------------------------------------------------------
  // Properties of an assembled page

  /** The operators of an assembled page, part by part. */
  lemma AssembledOps(opts: LayoutOptions, art: Art)
    requires art.Valid()
    ensures var r := AssemblePage(opts, art);
            r.ops == ClipPath(ClipRect(r, opts))
                     + DrawOps(AddBleed(opts, art.kind, r.mediaBox, PlannedSize(opts, art)))
                     + [PopGraphicsState]
                     + LineOps(if opts.bleed then AddCropMarks(r.mediaBox.width, r.mediaBox.height) else [])
  {
    var page := PreparedPage(opts, art);
    var r := AssemblePage(opts, art);
    assert r.mediaBox == page.mediaBox;
    assert ClipRect(r, opts) == ClipRect(page, opts);
    assert [] + ClipPath(ClipRect(page, opts)) == ClipPath(ClipRect(page, opts));
  }

  /** The boxes and rotation of an assembled page. With bleed the page gets
      the nested, concentric box set of the (possibly transposed) document;
      without bleed it is just the (possibly transposed) document size. A
      page is turned a quarter exactly when the artwork is rotated. */
  lemma AssembledBoxes(opts: LayoutOptions, art: Art)
    requires art.Valid()
    ensures var r := AssemblePage(opts, art);
            var rotate := RotateArt(opts, art);
            && r.rotation == (if rotate then 90 else 0)
            && (opts.bleed ==>
                  var b := BoxSetFor(opts.docSize, rotate);
                  r.mediaBox == b.media && r.bleedBox == Some(b.bleed) && r.trimBox == Some(b.trim))
            && (!opts.bleed ==>
                  && r.mediaBox == Rect(0.0, 0.0, Oriented(opts.docSize, rotate).width, Oriented(opts.docSize, rotate).height)
                  && r.bleedBox == None && r.trimBox == None)
  {
  }

  /** Any page content shaped clip, draws, restore, strokes reads back as
      those draws and strokes, and is well nested. */
  lemma ContentFacts(clip: Rect, draws: seq<Draw>, lines: seq<Segment>)
    ensures var ops := ClipPath(clip) + DrawOps(draws) + [PopGraphicsState] + LineOps(lines);
            && ops[..8] == ClipPath(clip)
            && ArtDraws(ops) == draws
            && Lines(ops) == lines
            && WellNested(ops)
  {
    var c := ClipPath(clip);
    var d := DrawOps(draws);
    var p: seq<Op> := [PopGraphicsState];
    var m := LineOps(lines);
    ClipPathFacts(clip);
    DrawOpsRoundTrip(draws);
    LineOpsRoundTrip(lines);
    ScanDraws(draws, 1);
    ScanLines(lines);
    assert ArtDraws(p) == [] && Lines(p) == [] && Scan(p, 1) == Some(0);
    ArtDrawsAppend(c, d);
    ArtDrawsAppend(c + d, p);
    ArtDrawsAppend(c + d + p, m);
    LinesAppend(c, d);
    LinesAppend(c + d, p);
    LinesAppend(c + d + p, m);
    ScanAppend(c, d, 0);
    ScanAppend(c + d, p, 0);
    ScanAppend(c + d + p, m, 0);
    assert (c + d + p + m)[..8] == c;
  }

  /** What an assembled page contains: one save-and-clip to the bleed box
      (bleed on) or the whole page (bleed off); the mirror tiler's 1 or 9
      draws, all of the unit's kind, the first centred on the page; one
      restore; then the 16 crop-mark strokes exactly when bleed is on. The
      operators are well nested: every save is restored and the crop marks
      come after the restore, unclipped. */
  lemma AssembledContent(opts: LayoutOptions, art: Art)
    requires art.Valid()
    ensures var r := AssemblePage(opts, art);
            && r.ops[..8] == ClipPath(if opts.bleed then r.GetBleedBox() else r.mediaBox)
            && |ArtDraws(r.ops)| == (if opts.bleed && opts.mirrorBleed then 9 else 1)
            && (forall d | d in ArtDraws(r.ops) :: d.kind == art.kind)
            && ArtDraws(r.ops)[0].x + ArtDraws(r.ops)[0].width / 2.0 == r.mediaBox.width / 2.0
            && ArtDraws(r.ops)[0].y + ArtDraws(r.ops)[0].height / 2.0 == r.mediaBox.height / 2.0
            && Lines(r.ops) == (if opts.bleed then AddCropMarks(r.mediaBox.width, r.mediaBox.height) else [])
            && WellNested(r.ops)
  {
    var r := AssemblePage(opts, art);
    AssembledOps(opts, art);
    AssembledBoxes(opts, art);
    ContentFacts(ClipRect(r, opts), AddBleed(opts, art.kind, r.mediaBox, PlannedSize(opts, art)),
                 if opts.bleed then AddCropMarks(r.mediaBox.width, r.mediaBox.height) else []);
    if opts.bleed {
      assert ClipRect(r, opts) == r.GetBleedBox();
    }
  }

  /** The page draws only artwork of `kind`: once, or nine times with bleed
      and mirror bleed. */
  predicate DrawsOnly(opts: LayoutOptions, kind: ArtKind, page: Page) {
    var ds := ArtDraws(page.ops);
    && (forall d | d in ds :: d.kind == kind)
    && |ds| == if opts.bleed && opts.mirrorBleed then 9 else 1
  }

  /** An assembled page draws only its unit's kind, once or, with bleed
      and mirror bleed, nine times. */
  lemma AssembledDrawCount(opts: LayoutOptions, art: Art)
    requires art.Valid()
    ensures DrawsOnly(opts, art.kind, AssemblePage(opts, art))
  {
    AssembledDraws(opts, art);
  }

  /** The draws of an assembled page are exactly the mirror tiler's, for the
      page's final media box and the planned size. */
  lemma AssembledDraws(opts: LayoutOptions, art: Art)
    requires art.Valid()
    ensures var r := AssemblePage(opts, art);
            ArtDraws(r.ops) == AddBleed(opts, art.kind, r.mediaBox, PlannedSize(opts, art))
  {
    var r := AssemblePage(opts, art);
    AssembledOps(opts, art);
    ContentFacts(ClipRect(r, opts), AddBleed(opts, art.kind, r.mediaBox, PlannedSize(opts, art)),
                 if opts.bleed then AddCropMarks(r.mediaBox.width, r.mediaBox.height) else []);
  }

  /** On a valid document the planned size is positive and, taken in the
      page's own (unturned) orientation, covers the document (fit) or fits
      inside it (contain). */
  lemma PlannedSizeAgainstDocument(opts: LayoutOptions, art: Art)
    requires art.Valid() && opts.Valid()
    ensures var s := PlannedSize(opts, art);
            var doc := Oriented(opts.docSize, RotateArt(opts, art));
            && s.width > 0.0 && s.height > 0.0
            && (opts.fit ==> Covers(s, doc))
            && (!opts.fit ==> FitsIn(s, doc))
            && Touches(s, doc)
  {
    var s := PlannedSize(opts, art);
    var o := OrientedArt(opts, art);
    var k := ScaleFactor(opts.fit, o, opts.docSize);
    assert s == Scaled(art.Dims(), k);
    assert k > 0.0 by {
      assert opts.docSize.width / o.width > 0.0;
      assert opts.docSize.height / o.height > 0.0;
    }
  }

  /** The centre draw of an assembled page covers the page's trim box under
      fit and lies inside it otherwise; both are compared in the page's own
      coordinates, in which the artwork is drawn unturned. */
  lemma CenterDrawAgainstTrim(opts: LayoutOptions, art: Art)
    requires art.Valid() && opts.Valid()
    ensures var r := AssemblePage(opts, art);
            var ds := ArtDraws(r.ops);
            && |ds| > 0
            && (opts.fit ==> Covered(ds[0]).Contains(r.GetTrimBox()))
            && (!opts.fit ==> r.GetTrimBox().Contains(Covered(ds[0])))
  {
    AssembledDraws(opts, art);
    AssembledBoxes(opts, art);
    PlannedSizeAgainstDocument(opts, art);
  }

  /** With bleed, mirror bleed and fit on a document at least 3 mm each way,
      the draws paint every point of the clip rectangle (the bleed box): no
      part of what stays visible is left blank. */
  lemma MirrorBleedFillsClip(opts: LayoutOptions, art: Art)
    requires art.Valid() && opts.bleed && opts.mirrorBleed && opts.fit
    requires opts.docSize.width >= Mm(3.0) && opts.docSize.height >= Mm(3.0)
    ensures var r := AssemblePage(opts, art);
            var ds := ArtDraws(r.ops);
            forall p: Point | r.GetBleedBox().ContainsPoint(p) :: Painted(ds, p)
  {
    var r := AssemblePage(opts, art);
    var ds, t, b := ArtDraws(r.ops), r.GetTrimBox(), r.GetBleedBox();
    AssembledDrawsFillGrid(opts, art);
    CenterDrawAgainstTrim(opts, art);
    BleedAroundTrim(opts, art);
    GridFillsBleed(ds, t, b);
  }

  /** Nine draws whose centre covers a trim box at least 3 mm each way and
      which together paint the grid around the centre paint the bleed box
      3 mm around the trim box. */
  lemma GridFillsBleed(ds: seq<Draw>, trim: Rect, bleed: Rect)
    requires |ds| == 9 && Covered(ds[0]).Contains(trim)
    requires trim.width >= Mm(3.0) && trim.height >= Mm(3.0)
    requires bleed == Rect(trim.x - Mm(3.0), trim.y - Mm(3.0), trim.width + Mm(6.0), trim.height + Mm(6.0))
    requires forall p: Point | Grid(Covered(ds[0])).ContainsPoint(p) :: Painted(ds, p)
    ensures forall p: Point | bleed.ContainsPoint(p) :: Painted(ds, p)
  {
    GridReachesBleed(Covered(ds[0]), trim, bleed);
    PaintedWithin(ds, Grid(Covered(ds[0])), bleed);
  }

  /** With bleed and mirror bleed, the nine draws of an assembled page
      paint every point of the 3×3 grid around the centre draw. */
  lemma AssembledDrawsFillGrid(opts: LayoutOptions, art: Art)
    requires art.Valid() && opts.Valid() && opts.bleed && opts.mirrorBleed
    ensures var ds := ArtDraws(AssemblePage(opts, art).ops);
            && |ds| == 9
            && forall p: Point | Grid(Covered(ds[0])).ContainsPoint(p) :: Painted(ds, p)
  {
    var r := AssemblePage(opts, art);
    PlannedSizeAgainstDocument(opts, art);
    AssembledDraws(opts, art);
    MirrorTilesCoverGrid(opts, art.kind, r.mediaBox, PlannedSize(opts, art));
  }

  /** With bleed, the page's bleed box is its trim box grown by 3 mm on
      every side. */
  lemma BleedAroundTrim(opts: LayoutOptions, art: Art)
    requires art.Valid() && opts.bleed
    ensures var r := AssemblePage(opts, art);
            var t := r.GetTrimBox();
            && t.Dims() == Oriented(opts.docSize, RotateArt(opts, art))
            && t.width >= Min(opts.docSize.width, opts.docSize.height)
            && t.height >= Min(opts.docSize.width, opts.docSize.height)
            && r.GetBleedBox() == Rect(t.x - Mm(3.0), t.y - Mm(3.0), t.width + Mm(6.0), t.height + Mm(6.0))
  {
    AssembledBoxes(opts, art);
  }

  /** Whatever paints every point of `outer` paints every point of a box inside it. */
  lemma PaintedWithin(ds: seq<Draw>, outer: Rect, inner: Rect)
    requires outer.Contains(inner)
    requires forall p: Point | outer.ContainsPoint(p) :: Painted(ds, p)
    ensures forall p: Point | inner.ContainsPoint(p) :: Painted(ds, p)
  {
    forall p: Point | inner.ContainsPoint(p)
      ensures Painted(ds, p)
    {
      assert outer.ContainsPoint(p);
    }
  }

  /** A cell covering the trim box, at least 3 mm each way, spans a grid
      reaching 3 mm past the trim box on every side. */
  lemma GridReachesBleed(c: Rect, trim: Rect, bleed: Rect)
    requires c.Contains(trim)
    requires trim.width >= Mm(3.0) && trim.height >= Mm(3.0)
    requires bleed == Rect(trim.x - Mm(3.0), trim.y - Mm(3.0), trim.width + Mm(6.0), trim.height + Mm(6.0))
    ensures Grid(c).Contains(bleed)
  {
  }

  /** Without mirror bleed, fit covers only the trim box: for artwork with
      the document's own proportions the single draw paints exactly the trim
      box, so the corner of the bleed box lies inside the clip yet no draw
      paints it. */
  lemma BleedMarginBlankWithoutMirror(opts: LayoutOptions, art: Art)
    requires art.Valid() && opts.Valid()
    requires opts.bleed && !opts.mirrorBleed && !RotateArt(opts, art)
    requires art.width * opts.docSize.height == art.height * opts.docSize.width
    ensures var r := AssemblePage(opts, art);
            var ds := ArtDraws(r.ops);
            var corner := Point(Mm(3.0), Mm(3.0));
            && |ds| == 1
            && Covered(ds[0]) == r.GetTrimBox()
            && r.GetBleedBox().ContainsPoint(corner)
            && !Covered(ds[0]).ContainsPoint(corner)
  {
    var r := AssemblePage(opts, art);
    var s := PlannedSize(opts, art);
    AssembledDraws(opts, art);
    AssembledBoxes(opts, art);
    PlannedSizeAgainstDocument(opts, art);
    PlannedSizeIsDocument(opts, art);
  }

  /** Unturned artwork with the document's proportions is planned at exactly
      the document size, under fit and contain alike. */
  lemma PlannedSizeIsDocument(opts: LayoutOptions, art: Art)
    requires art.Valid() && !RotateArt(opts, art)
    requires art.width * opts.docSize.height == art.height * opts.docSize.width
    ensures PlannedSize(opts, art) == opts.docSize
  {
    var s := PlannedSize(opts, art);
    assert Touches(s, opts.docSize);
    ProportionalTouchIsExact(s, art.Dims(), opts.docSize);
  }

  /** Without mirror bleed the single draw, fit or contain, turned or not,
      stays within the trim box's span on at least one axis, since the
      planned size meets the document on that axis: the bleed strips on
      both sides along it, and in particular the bleed-box corner, which
      lies inside the clip, are left unpainted. */
  lemma BleedStripsBlankWithoutMirror(opts: LayoutOptions, art: Art)
    requires art.Valid() && opts.Valid() && opts.bleed && !opts.mirrorBleed
    ensures var r := AssemblePage(opts, art);
            var ds := ArtDraws(r.ops);
            var t := r.GetTrimBox();
            var corner := Point(Mm(3.0), Mm(3.0));
            && |ds| == 1
            && (|| (t.x <= Covered(ds[0]).x && Covered(ds[0]).Right() <= t.Right())
                || (t.y <= Covered(ds[0]).y && Covered(ds[0]).Top() <= t.Top()))
            && r.GetBleedBox().ContainsPoint(corner)
            && !Covered(ds[0]).ContainsPoint(corner)
  {
    var r := AssemblePage(opts, art);
    AssembledDraws(opts, art);
    AssembledBoxes(opts, art);
    PlannedSizeAgainstDocument(opts, art);
  }

  /** With bleed, every crop mark of an assembled page runs along the line
      of a trim-box edge (horizontal marks on its bottom or top edge,
      vertical ones on its left or right edge) and lies wholly outside the
      trim box, inside the media box. */
  lemma AssembledMarksFrameTrim(opts: LayoutOptions, art: Art)
    requires art.Valid() && opts.Valid() && opts.bleed
    ensures var r := AssemblePage(opts, art);
            var t := r.GetTrimBox();
            var ls := Lines(r.ops);
            && |ls| == 16
            && forall k | 0 <= k < 16 ::
                 && (Horizontal(MarkOf(ls[k])) ==> ls[k].start.y == t.y || ls[k].start.y == t.Top())
                 && (Vertical(MarkOf(ls[k])) ==> ls[k].start.x == t.x || ls[k].start.x == t.Right())
                 && r.mediaBox.ContainsPoint(ls[k].start) && r.mediaBox.ContainsPoint(ls[k].end)
                 && (|| Max(ls[k].start.x, ls[k].end.x) < t.x
                     || Min(ls[k].start.x, ls[k].end.x) > t.Right()
                     || Max(ls[k].start.y, ls[k].end.y) < t.y
                     || Min(ls[k].start.y, ls[k].end.y) > t.Top())
  {
    var r := AssemblePage(opts, art);
    AssembledBoxes(opts, art);
    AssembledContent(opts, art);
    var b := BoxSetFor(opts.docSize, RotateArt(opts, art));
    assert r.mediaBox == b.media && r.GetTrimBox() == b.trim;
    assert b.trim == b.media.Inset(Mm(6.0));
    assert b.media.width >= 2.0 * LineDistance && b.media.height >= 2.0 * LineDistance;
    MarksStayInMargin(b.media.width, b.media.height);
  }

  /** A 100 mm square document with bleed, mirror bleed and fit, and a square
      image: a 112 mm media box, the trim box 6 mm in, a clip 3 mm in, nine
      draws and sixteen crop-mark strokes. */
  lemma SquareSheetExample(opts: LayoutOptions, art: Art)
    requires opts == LayoutOptions(Size(Mm(100.0), Mm(100.0)), false, true, true, true)
    requires art == Art(Image, 50.0, 50.0)
    ensures var r := AssemblePage(opts, art);
            && r.rotation == 0
            && r.mediaBox == Rect(0.0, 0.0, Mm(112.0), Mm(112.0))
            && r.GetTrimBox() == Rect(Mm(6.0), Mm(6.0), Mm(100.0), Mm(100.0))
            && r.ops[..8] == ClipPath(Rect(Mm(3.0), Mm(3.0), Mm(106.0), Mm(106.0)))
            && |ArtDraws(r.ops)| == 9
            && |Lines(r.ops)| == 16
  {
    var b := BoxSetFor(opts.docSize, false);
    assert b.media == Rect(0.0, 0.0, Mm(112.0), Mm(112.0));
    assert b.bleed == Rect(Mm(3.0), Mm(3.0), Mm(106.0), Mm(106.0));
    assert b.trim == Rect(Mm(6.0), Mm(6.0), Mm(100.0), Mm(100.0));
    assert !RotateArt(opts, art);
    AssembledBoxes(opts, art);
    AssembledContent(opts, art);
  }
}

=== FILE: boxes.dfy ===
/** The page-box table (`sizes`) and the three boxes `setBoxSize` derives from it. */
module Boxes {
  import opened Geometry
  import opened Units

  /** The zero-sized crop-mark anchor entry of the table. */
  datatype CropMarkSpec = CropMarkSpec(size: real, distance: real)

  /** One box of the table: its inset from the media origin and its extent,
      both in points, in the upright orientation. */
  datatype BoxSpec = BoxSpec(distance: real, width: real, height: real)

  datatype SizeTable = SizeTable(
    cropMark: CropMarkSpec,
    mediaBox: BoxSpec,
    bleedBox: BoxSpec,
    trimBox: BoxSpec)

  /** The box table for a document of `docSize` points: the trim box is the
      document, the bleed box adds 3 mm on every side and the media box 6 mm. */
  function Sizes(docSize: Size): (t: SizeTable)
    ensures t.cropMark == CropMarkSpec(0.0, 0.0)
    ensures t.trimBox.width == docSize.width && t.trimBox.height == docSize.height
    ensures t.mediaBox.distance == 0.0
    ensures t.bleedBox.distance == Mm(3.0) && t.trimBox.distance == Mm(6.0)
    // the bleed and trim boxes sit symmetrically inside the media box
    ensures 2.0 * t.bleedBox.distance + t.bleedBox.width == t.mediaBox.width
    ensures 2.0 * t.bleedBox.distance + t.bleedBox.height == t.mediaBox.height
    ensures 2.0 * t.trimBox.distance + t.trimBox.width == t.mediaBox.width
    ensures 2.0 * t.trimBox.distance + t.trimBox.height == t.mediaBox.height
  {
    SizeTable(
      CropMarkSpec(0.0, 0.0),
      BoxSpec(0.0, docSize.width + Mm(12.0), docSize.height + Mm(12.0)),
      BoxSpec(Mm(3.0), docSize.width + Mm(6.0), docSize.height + Mm(6.0)),
      BoxSpec(Mm(6.0), docSize.width, docSize.height))
  }

  /** The media, bleed and trim rectangles of one page. */
  datatype BoxSet = BoxSet(media: Rect, bleed: Rect, trim: Rect)

  /** A table entry as a rectangle, its extent transposed for a rotated page
      and its origin left as it is. */
  function BoxRect(b: BoxSpec, rotate: bool): Rect {
    Rect(b.distance, b.distance, if rotate then b.height else b.width, if rotate then b.width else b.height)
  }

  /** The boxes `setBoxSize` assigns: nested, concentric, with the trim box
      exactly the (possibly transposed) document. */
  function BoxSetFor(docSize: Size, rotate: bool): (b: BoxSet)
    ensures b.media.x == 0.0 && b.media.y == 0.0
    ensures b.media.Contains(b.bleed) && b.bleed.Contains(b.trim)
    ensures b.bleed.CenterX() == b.media.CenterX() && b.trim.CenterX() == b.media.CenterX()
    ensures b.bleed.CenterY() == b.media.CenterY() && b.trim.CenterY() == b.media.CenterY()
    ensures b.trim.Dims() == Oriented(docSize, rotate)
    ensures b.trim.width < b.bleed.width < b.media.width
    ensures b.trim.height < b.bleed.height < b.media.height
    ensures b.bleed == b.media.Inset(Mm(3.0)) && b.trim == b.media.Inset(Mm(6.0))
  {
    var t := Sizes(docSize);
    BoxSet(BoxRect(t.mediaBox, rotate), BoxRect(t.bleedBox, rotate), BoxRect(t.trimBox, rotate))
  }

  /** `b` is `a` turned a quarter: same origin, width and height exchanged. */
  predicate Turned(a: Rect, b: Rect) {
    a.x == b.x && a.y == b.y && a.width == b.height && a.height == b.width
  }

  /** Rotation exchanges width and height of every box and moves no origin. */
  lemma RotationTurnsEveryBox(docSize: Size)
    ensures Turned(BoxSetFor(docSize, false).media, BoxSetFor(docSize, true).media)
    ensures Turned(BoxSetFor(docSize, false).bleed, BoxSetFor(docSize, true).bleed)
    ensures Turned(BoxSetFor(docSize, false).trim, BoxSetFor(docSize, true).trim)
  {
  }
}

=== FILE: cropmarks.dfy ===
/** The crop-mark generator (`addCropMarks`): sixteen strokes forming an
    L-shaped pair of marks at each corner of the page. */
module CropMarks {
  import opened Geometry
  import opened Units

  /** Stroke colour: white, or none given, in which case the backend strokes black. */
  datatype LineColor = White | Unspecified

  datatype Segment = Segment(start: Point, end: Point, thickness: real, color: LineColor)

  /** Length of every mark. */
  const LineSize: real := Mm(4.0)

  /** Distance of every mark from the page edge it is perpendicular to. */
  const LineDistance: real := Mm(6.0)

  /** One mark: the two end points of its strokes. */
  datatype Mark = Mark(start: Point, end: Point)

  predicate Horizontal(m: Mark) { m.start.y == m.end.y }
  predicate Vertical(m: Mark) { m.start.x == m.end.x }

  function Length(m: Mark): real {
    Abs(m.end.x - m.start.x) + Abs(m.end.y - m.start.y)
  }

  function MarkOf(s: Segment): Mark { Mark(s.start, s.end) }

  /** A mark as the crop-mark convention places it on a `width` x `height`
      page: axis-aligned, 4 mm long, starting on the page border and running
      along the line 6 mm in from the border it is perpendicular to. */
  predicate WellPlaced(m: Mark, width: real, height: real) {
    && Horizontal(m) != Vertical(m)
    && Length(m) == LineSize
    && (Horizontal(m) ==>
          && (m.start.x == 0.0 || m.start.x == width)
          && (m.start.y == LineDistance || m.start.y == height - LineDistance))
    && (Vertical(m) ==>
          && (m.start.y == 0.0 || m.start.y == height)
          && (m.start.x == LineDistance || m.start.x == width - LineDistance))
  }

  predicate OnPage(m: Mark, width: real, height: real) {
    && Rect(0.0, 0.0, width, height).ContainsPoint(m.start)
    && Rect(0.0, 0.0, width, height).ContainsPoint(m.end)
  }

  /** A horizontal mark starting on the left or right border, or a vertical
      one starting on the bottom or top border, each 4 mm long and 6 mm in,
      is well placed, and lies on a page at least 6 mm each way. */
  lemma MarkFacts(m: Mark, width: real, height: real)
    requires
      || (&& m.start.y == m.end.y
          && (m.start.y == LineDistance || m.start.y == height - LineDistance)
          && ((m.start.x == 0.0 && m.end.x == LineSize)
              || (m.start.x == width && m.end.x == width - LineSize)))
      || (&& m.start.x == m.end.x
          && (m.start.x == LineDistance || m.start.x == width - LineDistance)
          && ((m.start.y == 0.0 && m.end.y == LineSize)
              || (m.start.y == height && m.end.y == height - LineSize)))
    ensures WellPlaced(m, width, height)
    ensures width >= LineDistance && height >= LineDistance ==> OnPage(m, width, height)
  {
  }

  /** The eight marks: for each corner (bottom left, bottom right, top left,
      top right) a horizontal mark and then a vertical one. */
  function Marks(width: real, height: real): (m: seq<Mark>)
    ensures |m| == 8
    ensures forall i | 0 <= i < 8 :: WellPlaced(m[i], width, height)
    ensures width >= LineDistance && height >= LineDistance ==>
              forall i | 0 <= i < 8 :: OnPage(m[i], width, height)
  {
    var size := LineSize;
    var d := LineDistance;
    var m := [ // bottom left
      Mark(Point(0.0, d), Point(size, d)),
      Mark(Point(d, 0.0), Point(d, size)),
      // bottom right
      Mark(Point(width, d), Point(width - size, d)),
      Mark(Point(width - d, 0.0), Point(width - d, size)),
      // top left
      Mark(Point(0.0, height - d), Point(size, height - d)),
      Mark(Point(d, height), Point(d, height - size)),
      // top right
      Mark(Point(width, height - d), Point(width - size, height - d)),
      Mark(Point(width - d, height), Point(width - d, height - size))
    ];
    MarkFacts(m[0], width, height);
    MarkFacts(m[1], width, height);
    MarkFacts(m[2], width, height);
    MarkFacts(m[3], width, height);
    MarkFacts(m[4], width, height);
    MarkFacts(m[5], width, height);
    MarkFacts(m[6], width, height);
    MarkFacts(m[7], width, height);
    m
  }

  /** A stroke tracing mark `m`: the wide white one beneath, or the thin
      default (black) one on top, so that the mark shows on any background. */
  function Stroke(m: Mark, beneath: bool): Segment {
    if beneath then Segment(m.start, m.end, 0.75, White)
    else Segment(m.start, m.end, 0.25, Unspecified)
  }

  /** The sixteen strokes of the crop marks of a `width` x `height` page:
      stroke k traces mark k / 2, the even one wide and white beneath, the
      odd one thin in the default colour on top; every one is well placed,
      and all are on the page once it is at least 6 mm wide and tall. */
  function AddCropMarks(width: real, height: real): (r: seq<Segment>)
    ensures |r| == 16
    ensures forall k | 0 <= k < 16 :: MarkOf(r[k]) == Marks(width, height)[k / 2]
    ensures forall k | 0 <= k < 16 ::
              if k % 2 == 0 then r[k].thickness == 0.75 && r[k].color == White
              else r[k].thickness == 0.25 && r[k].color == Unspecified
    ensures forall k | 0 <= k < 16 :: WellPlaced(MarkOf(r[k]), width, height)
    ensures width >= LineDistance && height >= LineDistance ==>
              forall k | 0 <= k < 16 :: OnPage(MarkOf(r[k]), width, height)
  {
    var marks := Marks(width, height);
    seq(16, k requires 0 <= k < 16 => Stroke(marks[k / 2], k % 2 == 0))
  }

  /** The strokes come in coincident pairs: strokes 2i and 2i + 1 trace the
      same mark, white beneath and then the default colour on top. */
  lemma StrokesPaired(width: real, height: real, i: nat)
    requires i < 8
    ensures var r := AddCropMarks(width, height);
            && MarkOf(r[2 * i]) == MarkOf(r[2 * i + 1])
            && r[2 * i].color == White && r[2 * i + 1].color == Unspecified
            && r[2 * i].thickness > r[2 * i + 1].thickness
  {
    var r := AddCropMarks(width, height);
    assert (2 * i) / 2 == i && (2 * i + 1) / 2 == i;
    assert (2 * i) % 2 == 0 && (2 * i + 1) % 2 == 1;
  }

  /** The four page corners, in the order the marks are emitted. */
  function Corner(i: nat, width: real, height: real): Point
    requires i < 4
  {
    [Point(0.0, 0.0), Point(width, 0.0), Point(0.0, height), Point(width, height)][i]
  }

  /** Every corner gets one horizontal and one vertical mark: strokes 4i
      (horizontal) and 4i + 2 (vertical) start on the two page edges through
      corner i, 6 mm from that corner. */
  lemma EachCornerMarked(width: real, height: real, i: nat)
    requires i < 4
    ensures var r := AddCropMarks(width, height);
            var c := Corner(i, width, height);
            && Horizontal(MarkOf(r[4 * i])) && r[4 * i].start.x == c.x
            && Abs(r[4 * i].start.y - c.y) == LineDistance
            && Vertical(MarkOf(r[4 * i + 2])) && r[4 * i + 2].start.y == c.y
            && Abs(r[4 * i + 2].start.x - c.x) == LineDistance
  {
  }

  /** On a page at least 12 mm wide and tall, no mark reaches into the
      rectangle 6 mm in from every edge: the marks stay in the margin. */
  lemma MarksStayInMargin(width: real, height: real)
    requires width >= 2.0 * LineDistance && height >= 2.0 * LineDistance
    ensures var r := AddCropMarks(width, height);
            var inner := Rect(0.0, 0.0, width, height).Inset(LineDistance);
            forall k | 0 <= k < 16 ::
              || Max(r[k].start.x, r[k].end.x) < inner.x
              || Min(r[k].start.x, r[k].end.x) > inner.Right()
              || Max(r[k].start.y, r[k].end.y) < inner.y
              || Min(r[k].start.y, r[k].end.y) > inner.Top()
  {
  }
}

=== FILE: geometry.dfy ===
/** Plane geometry shared by every component: points, sizes and rectangles in points. */
module Geometry {

  datatype Option<T> = None | Some(value: T) {
    /** The carried value, or `default` when there is none. */
    function GetOr(default: T): T {
      if Some? then value else default
    }
  }

  datatype Point = Point(x: real, y: real)

  datatype Size = Size(width: real, height: real) {
    function Transposed(): Size {
      Size(height, width)
    }
  }

  /** `s`, with width and height exchanged when `swap` holds. */
  function Oriented(s: Size, swap: bool): Size {
    if swap then s.Transposed() else s
  }

  /** An axis-aligned rectangle given by its lower-left corner and its extent
      (y grows upwards, as on a PDF page). */
  datatype Rect = Rect(x: real, y: real, width: real, height: real) {
    function Right(): real { x + width }
    function Top(): real { y + height }
    function CenterX(): real { x + width / 2.0 }
    function CenterY(): real { y + height / 2.0 }
    function Dims(): Size { Size(width, height) }

    /** `inner` lies within this rectangle (boundaries included). */
    predicate Contains(inner: Rect) {
      x <= inner.x && inner.Right() <= Right() && y <= inner.y && inner.Top() <= Top()
    }

    predicate ContainsPoint(p: Point) {
      x <= p.x <= Right() && y <= p.y <= Top()
    }

    /** The interiors of the two rectangles share a point. */
    predicate Overlaps(other: Rect) {
      x < other.Right() && other.x < Right() && y < other.Top() && other.y < Top()
    }

    /** This rectangle shrunk by `d` on every side. */
    function Inset(d: real): Rect {
      Rect(x + d, y + d, width - 2.0 * d, height - 2.0 * d)
    }
  }

  function Max(a: real, b: real): real {
    if a >= b then a else b
  }

  function Min(a: real, b: real): real {
    if a <= b then a else b
  }

  function Abs(a: real): real {
    if a < 0.0 then -a else a
  }
}

=== FILE: layout.dfy ===
/** The layout options and artwork units the imposition works on, and the
    auto-rotation decision (`rotateArt`). */
module Layout {
  import opened Geometry

  /** The options every computation reads. `docSize` is the output document
      size in points: the source adds it directly to `mm(12)` and hands it to
      `addPage`, so it is already in the backend's unit. */
  datatype LayoutOptions = LayoutOptions(
    docSize: Size,
    autoRotate: bool,
    fit: bool,
    bleed: bool,
    mirrorBleed: bool)
  {
    /** The document must have a positive size. */
    predicate Valid() { docSize.width > 0.0 && docSize.height > 0.0 }
  }

  /** The two kinds of artwork unit; the kind selects the draw operator. */
  datatype ArtKind = Image | EmbeddedPage

  /** One artwork unit with its intrinsic size in points. */
  datatype Art = Art(kind: ArtKind, width: real, height: real) {
    function Dims(): Size { Size(width, height) }

    /** Scaling divides by both dimensions, so they must be positive. */
    predicate Valid() { width > 0.0 && height > 0.0 }
  }

  predicate IsLandscape(s: Size) {
    s.width > s.height
  }

  /** Whether the page is turned to take the artwork: only when auto-rotation
      is on and the artwork is strictly wider than tall. */
  function RotateArt(opts: LayoutOptions, art: Art): (r: bool)
    ensures r <==> opts.autoRotate && IsLandscape(art.Dims())
  {
    opts.autoRotate && art.width > art.height
  }

  /** The artwork's size in the orientation the page is laid out in. */
  function OrientedArt(opts: LayoutOptions, art: Art): (s: Size)
    ensures opts.autoRotate ==> !IsLandscape(s)
    ensures !opts.autoRotate ==> s == art.Dims()
    ensures s == art.Dims() || s == art.Dims().Transposed()
    ensures s.width * s.height == art.width * art.height
  {
    Oriented(art.Dims(), RotateArt(opts, art))
  }

  /** Square artwork, portrait artwork, and any artwork with auto-rotation
      switched off keep the page upright. */
  lemma NoRotationUnlessLandscape(opts: LayoutOptions, art: Art)
    requires !opts.autoRotate || art.width <= art.height
    ensures !RotateArt(opts, art)
    ensures OrientedArt(opts, art) == art.Dims()
  {
  }
}

=== FILE: mirror.dfy ===
/** The mirror tiler (`addBleed`): the centred draw of the artwork and, when
    both bleed and mirror bleed are on, eight reflected copies around it. */
module Mirror {
  import opened Geometry
  import opened Layout

  /** One draw call: the artwork's unit square mapped onto
      [x, x + width] x [y, y + height]; a negative width or height flips
      the artwork along that axis. */
  datatype Draw = Draw(kind: ArtKind, x: real, y: real, width: real, height: real)

  /** The nine cells of the mirrored grid. */
  datatype Position =
    | Center | TopLeft | CenterLeft | BottomLeft | TopCenter
    | BottomCenter | TopRight | CenterRight | BottomRight

  /** Column of a cell: -1 left, 0 centre, 1 right. */
  function Column(p: Position): int {
    match p
    case TopLeft | CenterLeft | BottomLeft => -1
    case Center | TopCenter | BottomCenter => 0
    case TopRight | CenterRight | BottomRight => 1
  }

  /** Row of a cell: 1 top, 0 centre, -1 bottom (y grows upwards). */
  function Row(p: Position): int {
    match p
    case TopLeft | TopCenter | TopRight => 1
    case CenterLeft | Center | CenterRight => 0
    case BottomLeft | BottomCenter | BottomRight => -1
  }

  /** The order in which the draws are emitted. */
  const EmissionOrder: seq<Position> :=
    [Center, TopLeft, CenterLeft, BottomLeft, TopCenter, BottomCenter, TopRight, CenterRight, BottomRight]

  /** The rectangle a draw paints, whatever the signs of its width and height. */
  function Covered(d: Draw): Rect {
    Rect(if d.width < 0.0 then d.x + d.width else d.x,
         if d.height < 0.0 then d.y + d.height else d.y,
         Abs(d.width), Abs(d.height))
  }

  /** `step` moved `c` cells along an axis. */
  function Offset(c: int, step: real): real {
    if c < 0 then -step else if c > 0 then step else 0.0
  }

  /** The grid cell at `p` for the centre cell `center`. */
  function Cell(center: Rect, p: Position): Rect {
    Rect(center.x + Offset(Column(p), center.width), center.y + Offset(Row(p), center.height),
         center.width, center.height)
  }

  /** The draws `addBleed` issues for placed size `artSize` on a media box
      of `media`: the centred draw always; the eight mirrored ones only when
      both bleed and mirror bleed are on. Normalised, draw k paints the
      grid cell `EmissionOrder[k]`, and its width (height) is negative
      exactly when that cell is off the centre column (row). */
  function AddBleed(opts: LayoutOptions, kind: ArtKind, media: Rect, artSize: Size): (r: seq<Draw>)
    ensures |r| == if opts.bleed && opts.mirrorBleed then 9 else 1
    ensures forall d | d in r :: d.kind == kind
    ensures r[0].width == artSize.width && r[0].height == artSize.height
    ensures r[0].x + r[0].width / 2.0 == media.width / 2.0
    ensures r[0].y + r[0].height / 2.0 == media.height / 2.0
    ensures |r| == 9 && artSize.width >= 0.0 && artSize.height >= 0.0 ==>
              forall k | 0 <= k < 9 :: Covered(r[k]) == Cell(Covered(r[0]), EmissionOrder[k])
    ensures |r| == 9 && artSize.width > 0.0 && artSize.height > 0.0 ==>
              forall k | 0 <= k < 9 ::
                && (r[k].width < 0.0 <==> Column(EmissionOrder[k]) != 0)
                && (r[k].height < 0.0 <==> Row(EmissionOrder[k]) != 0)
  {
    var w := artSize.width;
    var h := artSize.height;
    var x := media.width / 2.0 - w / 2.0;
    var y := media.height / 2.0 - h / 2.0;
    var center := [Draw(kind, x, y, w, h)];
    if !opts.bleed || !opts.mirrorBleed then center
    else
      center + [
        Draw(kind, x, y + h * 2.0, -w, -h),          // top-left
        Draw(kind, x, y, -w, h),                     // center-left
        Draw(kind, x, y, -w, -h),                    // bottom-left
        Draw(kind, x, y + h * 2.0, w, -h),           // top-center
        Draw(kind, x, y, w, -h),                     // bottom-center
        Draw(kind, x + w * 2.0, y + h * 2.0, -w, -h), // top-right
        Draw(kind, x + w * 2.0, y, -w, h),           // center-right
        Draw(kind, x + w * 2.0, y, -w, -h)           // bottom-right
      ]
  }

  /** A position is determined by its column and row. */
  lemma PositionsByColumnRow(p: Position, q: Position)
    requires Column(p) == Column(q) && Row(p) == Row(q)
    ensures p == q
  {
  }

  /** Two different cell offsets along one axis leave the cells apart. */
  lemma OffsetsApart(start: real, step: real, a: int, b: int)
    requires step > 0.0 && -1 <= a <= 1 && -1 <= b <= 1 && a != b
    ensures start + Offset(a, step) + step <= start + Offset(b, step)
            || start + Offset(b, step) + step <= start + Offset(a, step)
  {
  }

  /** Cells at different positions never share interior points. */
  lemma CellsDisjoint(center: Rect, p: Position, q: Position)
    requires center.width > 0.0 && center.height > 0.0
    requires p != q
    ensures !Cell(center, p).Overlaps(Cell(center, q))
  {
    if Column(p) != Column(q) {
      OffsetsApart(center.x, center.width, Column(p), Column(q));
    } else if Row(p) != Row(q) {
      OffsetsApart(center.y, center.height, Row(p), Row(q));
    } else {
      PositionsByColumnRow(p, q);
    }
  }

  /** The emission order lists each position once. */
  lemma EmissionOrderDistinct(j: nat, k: nat)
    requires j < 9 && k < 9 && j != k
    ensures EmissionOrder[j] != EmissionOrder[k]
  {
    IndexOfEmission(j);
    IndexOfEmission(k);
  }

  /** The nine mirrored draws paint pairwise non-overlapping rectangles. */
  lemma MirrorTilesDisjoint(opts: LayoutOptions, kind: ArtKind, media: Rect, artSize: Size)
    requires opts.bleed && opts.mirrorBleed
    requires artSize.width > 0.0 && artSize.height > 0.0
    ensures var r := AddBleed(opts, kind, media, artSize);
            forall j, k | 0 <= j < k < 9 :: !Covered(r[j]).Overlaps(Covered(r[k]))
  {
    var r := AddBleed(opts, kind, media, artSize);
    var c := Covered(r[0]);
    forall j, k | 0 <= j < k < 9
      ensures !Covered(r[j]).Overlaps(Covered(r[k]))
    {
      EmissionOrderDistinct(j, k);
      CellsDisjoint(c, EmissionOrder[j], EmissionOrder[k]);
    }
  }

  /** The 3 x 3 grid of cells around `center`. */
  function Grid(center: Rect): Rect {
    Rect(center.x - center.width, center.y - center.height, 3.0 * center.width, 3.0 * center.height)
  }

  /** The cell of the grid around `center` that holds the grid point `p`. */
  function CellAt(center: Rect, p: Point): Position {
    var col := if p.x < center.x then -1 else if p.x <= center.Right() then 0 else 1;
    var row := if p.y < center.y then -1 else if p.y <= center.Top() then 0 else 1;
    if col == -1 then (if row == 1 then TopLeft else if row == 0 then CenterLeft else BottomLeft)
    else if col == 0 then (if row == 1 then TopCenter else if row == 0 then Center else BottomCenter)
    else (if row == 1 then TopRight else if row == 0 then CenterRight else BottomRight)
  }

  /** The index of a position in the emission order. */
  function IndexOf(p: Position): (k: nat)
    ensures k < 9 && EmissionOrder[k] == p
  {
    match p
    case Center => 0
    case TopLeft => 1
    case CenterLeft => 2
    case BottomLeft => 3
    case TopCenter => 4
    case BottomCenter => 5
    case TopRight => 6
    case CenterRight => 7
    case BottomRight => 8
  }

  /** `IndexOf` inverts the emission order. */
  lemma IndexOfEmission(k: nat)
    requires k < 9
    ensures IndexOf(EmissionOrder[k]) == k
  {
  }

  /** Every cell lies in the grid. */
  lemma CellInGrid(center: Rect, p: Position)
    requires center.width > 0.0 && center.height > 0.0
    ensures Grid(center).Contains(Cell(center, p))
  {
  }

  /** `CellAt` finds a cell holding any grid point. */
  lemma CellAtHolds(center: Rect, p: Point)
    requires center.width > 0.0 && center.height > 0.0
    requires Grid(center).ContainsPoint(p)
    ensures Cell(center, CellAt(center, p)).ContainsPoint(p)
  {
  }

  /** Some draw of `ds` paints the point `p`. */
  predicate Painted(ds: seq<Draw>, p: Point) {
    exists k | 0 <= k < |ds| :: Covered(ds[k]).ContainsPoint(p)
  }

  /** The nine mirrored draws tile the 3 x 3 grid around the centre draw:
      each stays inside it and every point of it is painted by one of them. */
  lemma MirrorTilesCoverGrid(opts: LayoutOptions, kind: ArtKind, media: Rect, artSize: Size)
    requires opts.bleed && opts.mirrorBleed
    requires artSize.width > 0.0 && artSize.height > 0.0
    ensures var r := AddBleed(opts, kind, media, artSize);
            && (forall k | 0 <= k < 9 :: Grid(Covered(r[0])).Contains(Covered(r[k])))
            && (forall p: Point | Grid(Covered(r[0])).ContainsPoint(p) :: Painted(r, p))
  {
    var r := AddBleed(opts, kind, media, artSize);
    var c := Covered(r[0]);
    forall k | 0 <= k < 9
      ensures Grid(c).Contains(Covered(r[k]))
    {
      CellInGrid(c, EmissionOrder[k]);
    }
    forall p: Point | Grid(c).ContainsPoint(p)
      ensures Painted(r, p)
    {
      var pos := CellAt(c, p);
      CellAtHolds(c, p);
      var k := IndexOf(pos);
      assert Covered(r[k]) == Cell(c, pos);
      assert Covered(r[k]).ContainsPoint(p);
    }
  }

  /** Where a draw puts the point (u, v) of the artwork's unit square. */
  function MapPoint(d: Draw, u: real, v: real): Point {
    Point(d.x + u * d.width, d.y + v * d.height)
  }

  /** `p` reflected across the edges the centre cell `center` shares with the
      cell at `pos`: the left or right edge for a side column, the top or
      bottom edge for a side row. */
  function Reflect(center: Rect, pos: Position, p: Point): Point {
    var px := if Column(pos) < 0 then 2.0 * center.x - p.x
              else if Column(pos) > 0 then 2.0 * center.Right() - p.x
              else p.x;
    var py := if Row(pos) < 0 then 2.0 * center.y - p.y
              else if Row(pos) > 0 then 2.0 * center.Top() - p.y
              else p.y;
    Point(px, py)
  }

  /** Along one axis: a draw starting at `x` with signed extent `extent`
      that paints the cell `col` steps from the centre cell [cx, cx + w],
      flipped exactly when off the centre, maps u to the reflection of the
      centre cell's image of u across their shared edge. */
  lemma ReflectAxis(x: real, extent: real, cx: real, w: real, col: int, u: real)
    requires w > 0.0 && -1 <= col <= 1
    requires Abs(extent) == w && (extent < 0.0 <==> col != 0)
    requires (if extent < 0.0 then x + extent else x) == cx + Offset(col, w)
    ensures x + u * extent ==
              if col < 0 then 2.0 * cx - (cx + u * w)
              else if col > 0 then 2.0 * (cx + w) - (cx + u * w)
              else cx + u * w
  {
    if col != 0 {
      assert extent == -w;
      assert u * extent == -(u * w);
    }
  }

  /** A draw painting the cell at `pos` around the upright draw `d0`,
      flipped exactly along the axes where `pos` is off the centre, is the
      reflection of `d0` across their shared edge(s). */
  lemma ReflectedDraw(d: Draw, d0: Draw, pos: Position, u: real, v: real)
    requires d0.width > 0.0 && d0.height > 0.0
    requires Covered(d) == Cell(Covered(d0), pos)
    requires (d.width < 0.0 <==> Column(pos) != 0) && (d.height < 0.0 <==> Row(pos) != 0)
    ensures MapPoint(d, u, v) == Reflect(Covered(d0), pos, MapPoint(d0, u, v))
  {
    var c := Covered(d0);
    assert c == Rect(d0.x, d0.y, d0.width, d0.height);
    ReflectAxis(d.x, d.width, c.x, c.width, Column(pos), u);
    ReflectAxis(d.y, d.height, c.y, c.height, Row(pos), v);
  }

  /** Every mirrored copy is the mirror image of the centre draw across their
      shared edge(s): the copies are reflections, not repetitions, so the
      artwork continues without a seam into every neighbouring cell. */
  lemma MirrorCopiesReflectCenter(opts: LayoutOptions, kind: ArtKind, media: Rect, artSize: Size, u: real, v: real)
    requires opts.bleed && opts.mirrorBleed
    requires artSize.width > 0.0 && artSize.height > 0.0
    ensures var r := AddBleed(opts, kind, media, artSize);
            forall k | 0 <= k < 9 ::
              MapPoint(r[k], u, v) == Reflect(Covered(r[0]), EmissionOrder[k], MapPoint(r[0], u, v))
  {
    var r := AddBleed(opts, kind, media, artSize);
    forall k | 0 <= k < 9
      ensures MapPoint(r[k], u, v) == Reflect(Covered(r[0]), EmissionOrder[k], MapPoint(r[0], u, v))
    {
      ReflectedDraw(r[k], r[0], EmissionOrder[k], u, v);
    }
  }

  /** Two cells that share an edge. */
  predicate EdgeAdjacent(p: Position, q: Position) {
    (Column(p) == Column(q) && (Row(p) - Row(q) == 1 || Row(q) - Row(p) == 1))
    || (Row(p) == Row(q) && (Column(p) - Column(q) == 1 || Column(q) - Column(p) == 1))
  }

  /** Draws of edge-adjacent cells differ in the sign of exactly one of
      width and height: crossing a shared edge flips along that edge only. */
  lemma AdjacentDrawsDifferInOneSign(opts: LayoutOptions, kind: ArtKind, media: Rect, artSize: Size)
    requires opts.bleed && opts.mirrorBleed
    requires artSize.width > 0.0 && artSize.height > 0.0
    ensures var r := AddBleed(opts, kind, media, artSize);
            forall j, k | 0 <= j < 9 && 0 <= k < 9 && EdgeAdjacent(EmissionOrder[j], EmissionOrder[k]) ::
              (r[j].width < 0.0 <==> r[k].width < 0.0) != (r[j].height < 0.0 <==> r[k].height < 0.0)
  {
  }
}

=== FILE: scale.dfy ===
/** The scale planner (`getArtSize`): one uniform factor that makes the
    artwork cover the target box (fit) or fit inside it (contain). */
module Scale {
  import opened Geometry
  import opened Layout

  function Scaled(s: Size, k: real): Size {
    Size(s.width * k, s.height * k)
  }

  predicate Covers(s: Size, target: Size) {
    s.width >= target.width && s.height >= target.height
  }

  predicate FitsIn(s: Size, target: Size) {
    s.width <= target.width && s.height <= target.height
  }

  /** `s` meets the target exactly on at least one axis. */
  predicate Touches(s: Size, target: Size) {
    s.width == target.width || s.height == target.height
  }

  /** The larger of the two axis ratios when `fit` (cover), the smaller otherwise (contain). */
  function ScaleFactor(fit: bool, art: Size, target: Size): (k: real)
    requires art.width > 0.0 && art.height > 0.0
    ensures fit ==> Covers(Scaled(art, k), target)
    ensures !fit ==> FitsIn(Scaled(art, k), target)
    ensures Touches(Scaled(art, k), target)
  {
    var widthScale := target.width / art.width;
    var heightScale := target.height / art.height;
    if fit then Max(widthScale, heightScale) else Min(widthScale, heightScale)
  }

  /** For positive `b`, `k * b >= a` exactly when `k >= a / b`, and likewise for `<=`. */
  lemma RatioBound(a: real, b: real, k: real)
    requires b > 0.0
    ensures k * b >= a <==> k >= a / b
    ensures k * b <= a <==> k <= a / b
  {
    var q := a / b;
    assert q * b == a;
    assert k * b - a == (k - q) * b;
  }

  /** The fit factor is the least uniform factor that covers the target. */
  lemma CoverScaleIsLeast(art: Size, target: Size, k: real)
    requires art.width > 0.0 && art.height > 0.0
    ensures Covers(Scaled(art, k), target) <==> k >= ScaleFactor(true, art, target)
  {
    RatioBound(target.width, art.width, k);
    RatioBound(target.height, art.height, k);
  }

  /** The contain factor is the greatest uniform factor that fits in the target. */
  lemma ContainScaleIsGreatest(art: Size, target: Size, k: real)
    requires art.width > 0.0 && art.height > 0.0
    ensures FitsIn(Scaled(art, k), target) <==> k <= ScaleFactor(false, art, target)
  {
    RatioBound(target.width, art.width, k);
    RatioBound(target.height, art.height, k);
  }

  /** The placed size of `art`: its intrinsic size times the factor planned
      for its oriented size against the bleed box (fit) or trim box (contain).
      Compared in the page's orientation it covers or fits that box and meets
      it on one axis; the aspect ratio is kept. */
  function GetArtSize(opts: LayoutOptions, art: Art, bleedBox: Rect, trimBox: Rect): (r: Size)
    requires art.Valid()
    ensures var target := if opts.fit then bleedBox.Dims() else trimBox.Dims();
            var placed := Oriented(r, RotateArt(opts, art));
            && (opts.fit ==> Covers(placed, target))
            && (!opts.fit ==> FitsIn(placed, target))
            && Touches(placed, target)
    ensures r.width * art.height == r.height * art.width
  {
    var target := if opts.fit then bleedBox.Dims() else trimBox.Dims();
    var k := ScaleFactor(opts.fit, OrientedArt(opts, art), target);
    Scaled(art.Dims(), k)
  }

  /** A size with the artwork's proportions that meets a target of the same
      proportions on one axis meets it on both: it is the target. */
  lemma ProportionalTouchIsExact(s: Size, art: Size, target: Size)
    requires art.width > 0.0 && art.height > 0.0
    requires s.width * art.height == s.height * art.width
    requires target.width * art.height == target.height * art.width
    requires Touches(s, target)
    ensures s == target
  {
    // the two axes differ from the target in proportion, and one differs by nothing
    assert (s.width - target.width) * art.height == (s.height - target.height) * art.width;
  }
}

=== FILE: units.dfy ===
/** Millimetre <-> point conversion. Every other component works in points
    (the drawing backend's native unit); millimetres only name the fixed
    margins of the imposition (3, 4, 6 and 12 mm). */
module Units {

  /** Points per millimetre, the constant the conversions multiply and divide by. */
  const PointsPerMm: real := 2.834645663

  /** `n` millimetres expressed in points. */
  function Mm(n: real): (r: real)
    ensures n > 0.0 ==> r > n
    ensures n < 0.0 ==> r < n
    ensures r == 0.0 <==> n == 0.0
  {
    n * PointsPerMm
  }

  /** `n` points expressed in millimetres. */
  function ToMm(n: real): (r: real)
    ensures r * PointsPerMm == n
  {
    n / PointsPerMm
  }

  /** The two conversions are exact inverses of each other over the reals. */
  lemma RoundTrip(n: real)
    ensures ToMm(Mm(n)) == n
    ensures Mm(ToMm(n)) == n
  {
  }

  /** `Mm` is strictly monotone, so it preserves every comparison between margins. */
  lemma MmStrictlyMonotone(a: real, b: real)
    ensures a < b <==> Mm(a) < Mm(b)
    ensures a == b <==> Mm(a) == Mm(b)
  {
  }

  /** `Mm` is linear: margins built from sums of millimetres add up in points. */
  lemma MmAdditive(a: real, b: real)
    ensures Mm(a + b) == Mm(a) + Mm(b)
    ensures Mm(2.0 * a) == 2.0 * Mm(a)
  {
  }
}
